=== FILE: README.md ===
# Pagination and query shaping of the fashion-shop product API

This project is a Dafny model of the small pure layer of the fashion-shop
backend that sits between the product database and the HTTP responses:

- **Pagination** (`src/commonUtil/paginationUtil.ts`). A fetched product list is cut into
  pages of `itemPerPage` items. Page number `currentPage` (1-based) is looked up and
  wrapped with its metadata (`data`, `currentPage`, `itemPerPage`, `totalItems`,
  `totalPages`). There are three outcomes: `null` for a non-positive page size, a
  thrown `PAGE_NO_EXCEED` error for a page past the last, or the page. `pageLimit`
  caps a page size at 50.
- **Outcome mapping** (`src/product/product.paginate.controller.ts`). `paginateRecords`
  turns a `null` list into a 404 and an out-of-range page into a 400. Any other
  paginator result is passed through. The `GET product/pg` and `GET product/pg/sortby`
  handlers default the page to 1 and the size to 50.
- **Price filters** (`src/commonUtil/productUtil.ts`). `validateUndefined` and the
  min/max price checks choose between an at-least, an at-most and a between filter.
- **Sort order** (`src/product/product.controller.ts`). The optional `orderby_name` and
  `orderby_price` strings become an ordered list of `column: ASC|DESC` entries.
  `getAllProducts` rejects an empty product list.

Files and modules:

| file | module | models |
|---|---|---|
| `wrappers.dfy` | `Wrappers` | `Option`, standing for JavaScript `null`/`undefined` |
| `http.dfy` | `Http` | a controller's return value or thrown `HttpException` |
| `pagination.dfy` | `Pagination` | `paginationUtil.ts` |
| `product_util.dfy` | `ProductUtil` | `productUtil.ts` |
| `product_controller.dfy` | `ProductController` | the order building and `getAllProducts` of `product.controller.ts` |
| `product_paginate_controller.dfy` | `ProductPaginateController` | `paginateRecords` and the `GET product/pg` and `GET product/pg/sortby` handlers |

The chunking is modelled as the fold the source writes with `reduce`. At index `i`,
the slice `i .. i+k` (cut at the end) is appended when `i % k == 0`. The fold's
contract is the heart of the model: the pages it builds are exactly the pages
`IsPageOf` describes, and there are `TotalPages(n, k) = ceil(n / k)` of them. Every
later property follows from that contract.

Behaviour of the code that a reader might not expect, reproduced as written:

- A non-positive page number is not served as page 1. `getByPageNumber` reads
  `nestedlist[page - 1]` before the page number is normalised, so the result reports
  `currentPage == 1` with `data` undefined (`None` here).
  `Pagination.NonPositivePageIsNotFirstPage` states this.
- A `null` list gives no result only with a non-positive page size. With a positive
  size, `reduce` runs on `null` and fails, so the model admits a `null` list only with
  a non-positive size.
- `ProductController.getAllProducts` reads `result.length` without a `null` check. A
  `null` result from the product service therefore crashes there with a TypeError
  (an internal server error), before the paginating controller's own `null` check
  can answer it with a 404. See "## Findings".
- For an empty product list, the `GET product/pg` handler answers with a 400 carrying
  "No record found" (from `getAllProducts`), not `PAGE_NO_EXCEED`. The test at
  product.paginate.controller.spec.ts lines 87-95 expects the latter message, as does
  the endpoint's documented 400; the model follows the code and states the
  corrected handler separately. See "## Findings".

## Model

| member | source | states |
|---|---|---|
| Pagination.ChunkFold | src/commonUtil/paginationUtil.ts:13-15 | folding over the list and appending the slice `i .. i+k` at every multiple `i` of `k` yields exactly the pages of the list: ceil(n/k) of them, page j being items j*k up to (j+1)*k, cut at the end |
| Pagination.ConvertListIntoNestedList | src/commonUtil/paginationUtil.ts:7-19 | `null` exactly when the page limit is not positive; otherwise exactly the pages of the list |
| Pagination.TotalPagesIsCeiling | src/commonUtil/paginationUtil.ts:40 | the page count is the ceiling of n/k: that many pages of k items cover the list, one fewer does not |
| Pagination.ChunkSizes | src/commonUtil/paginationUtil.ts:13-15 | every page is non-empty and holds at most k items; every page but the last holds exactly k |
| Pagination.FlattenPrefix | src/commonUtil/paginationUtil.ts:13-15 | the first m pages concatenate to the first m*k items of the list |
| Pagination.ChunksConcatenate | src/commonUtil/paginationUtil.ts:13-15 | the pages concatenate back to the original list |
| Pagination.GetByPageNumber | src/commonUtil/paginationUtil.ts:21-32 | `null` exactly for a `null` nested list; an error exactly when the page is past the last; else the element at page-1, which is undefined exactly when page < 1 |
| Pagination.GetPaginatedList | src/commonUtil/paginationUtil.ts:34-45 | no result exactly for a non-positive page size; for a positive one, PAGE_NO_EXCEED exactly when the page is past ceil(n/k); otherwise page metadata (page normalised to at least 1, size, n, ceil(n/k)) and, for page >= 1, exactly that page's slice, for page <= 0 no data |
| Pagination.NonPositivePageSizeGivesNoResult | src/commonUtil/paginationUtil.ts:8-9 | a non-positive page size gives no result for every list, `null` included, and every page |
| Pagination.EmptyListFirstPageExceeds | src/commonUtil/paginationUtil.ts:25-27 | page 1 of an empty list throws PAGE_NO_EXCEED |
| Pagination.NonPositivePageIsNotFirstPage | src/commonUtil/paginationUtil.ts:36-38 | a page number <= 0 never fails and reports page 1 without data, so it differs from a request for page 1 |
| Pagination.PageInRangeIsSlice | src/commonUtil/paginationUtil.ts:30 | page p in range carries items (p-1)*k up to min(p*k, n) |
| Pagination.AllPagesConcatenate | src/commonUtil/paginationUtil.ts:34-45 | requesting pages 1 to totalPages in turn and concatenating their data gives back the list |
| Pagination.ThreeHundredItems | src/commonUtil/paginationUtil.spec.ts:6-44 | 300 items at 50 per page: 6 pages, the first starting with item 1, totalItems 300 (the test reads a field `total` the DTO does not have; the count is set at paginationUtil.ts line 39); page 50 at 100 per page exceeds; page size 0 gives no result, also for a `null` list |
| Pagination.PageLimit | src/commonUtil/paginationUtil.ts:47-52 | the result is at most 50, it is either the input or 50, and inputs up to 50 (non-positive ones too) pass unchanged |
| Pagination.PageLimitIdempotent | src/commonUtil/paginationUtil.ts:47-52 | capping twice is capping once |
| ProductUtil.ValidateUndefined | src/commonUtil/productUtil.ts:8-11 | `undefined` becomes `""`, every other value is returned unchanged |
| ProductUtil.ValidateUndefinedBlank | src/commonUtil/productUtil.ts:8-11 | after validateUndefined a value is `""` exactly when it was `undefined` or `""` |
| ProductUtil.VerifyOverlappingMinMaxValue | src/commonUtil/productUtil.ts:56-58 | the bounds overlap exactly when min is not below max |
| ProductUtil.VerifyMinMaxValueError | src/commonUtil/productUtil.ts:13-34 | `null` exactly when both bounds are absent; NO_ERROR when one is present, whatever its value; with both, ERROR_OVERLAPPINGPRICES exactly when min >= max (equal bounds are an error) |
| ProductUtil.DefineMinMaxValueFunction | src/commonUtil/productUtil.ts:36-54 | only min gives MoreThanOrEqual(min), only max gives LessThanOrEqual(max), both or neither give Between(min, max) |
| ProductUtil.NoQueryIsUnboundedBetween | src/commonUtil/productUtil.ts:19-21 | validation returns `null` exactly when the selected filter is a between with no bounds |
| ProductUtil.ValidatedFilterIsSatisfiable | src/commonUtil/productUtil.ts:30-33 | when validation returns NO_ERROR, a selected between filter has min < max and some price satisfies the selected filter |
| ProductUtil.RejectedPairOverlaps | src/commonUtil/productUtil.ts:30-33 | when validation returns the overlap error, both bounds are present and min >= max |
| ProductController.UpperCaseIsDesc | src/product/product.controller.ts:111 | the upper-case form of an order string is "DESC" exactly when it spells "desc" in some mix of cases |
| ProductController.DirectionOf | src/product/product.controller.ts:111 | DESC exactly for a case-insensitive "desc", ASC for every other string ("asc" and garbage alike) |
| ProductController.BuildOrder | src/product/product.controller.ts:104-117 | at most a name and a price entry, name before price; a name entry exactly when `orderby_name` is given and non-empty, with DESC exactly for "desc" in any case; likewise for price |
| ProductController.ColumnsIndependent | src/product/product.controller.ts:113-114 | the price entry does not depend on `orderby_name` |
| ProductController.AllProductsOrder | src/product/product.controller.ts:39 | getAllProducts orders by name ascending and by nothing else |
| ProductController.GetAllProducts | src/product/product.controller.ts:38-48 | a `null` service result crashes on `result.length`; an empty list is a 400 "No record found"; a non-empty one is returned unchanged |
| ProductController.GetAllProductsNullSafe | src/product/product.controller.ts:38-48 | the corrected getAllProducts never crashes: a `null` result is passed on as `null`, lists are answered as by getAllProducts |
| ProductPaginateController.PaginateRecords | src/product/product.paginate.controller.ts:18-39 | `null` products give a 404 with NO_PRODUCT_FOUND; a page past ceil(n/k) gives a 400 with PAGE_NO_EXCEED; a non-positive size returns `null`; otherwise the paginator's result is returned unchanged |
| ProductPaginateController.SameOutOfRangeMessage | src/product/product.paginate.controller.ts:16 | the controller's PAGE_NO_EXCEED equals the paginator's |
| ProductPaginateController.NullProductsIgnorePaging | src/product/product.paginate.controller.ts:33-37 | the answer to `null` products does not depend on the page parameters |
| ProductPaginateController.EmptyProductsFirstPageIsBadRequest | src/product/product.paginate.controller.spec.ts:123-131 | page 1 of an empty product list is a 400 with PAGE_NO_EXCEED |
| ProductPaginateController.SingleProductFirstPage | src/product/product.paginate.controller.spec.ts:112-121 | one product at page 1, ten per page, comes back as the page's only item |
| ProductPaginateController.PageQuery | src/product/product.paginate.controller.ts:75-76 | absent query values default to page 1 and 50 items per page; given ones are kept |
| ProductPaginateController.GetAllProducts | src/product/product.paginate.controller.ts:74-81 | a `null` fetch crashes in getAllProducts; an empty list is the 400 of getAllProducts; otherwise paginateRecords with the requested or default parameters, the page size kept as requested |
| ProductPaginateController.NotFoundUnreachable | src/product/product.paginate.controller.ts:74-81 | no fetched result makes the handler answer 404 with NO_PRODUCT_FOUND; a `null` fetch crashes instead |
| ProductPaginateController.GetAllProductsNullSafe | src/product/product.paginate.controller.ts:74-81 | with the corrected getAllProducts, a `null` fetch is a 404 with NO_PRODUCT_FOUND, nothing crashes, and every list is answered as by the handler as written |
| ProductPaginateController.DefaultRequestServesFirstFifty | src/product/product.paginate.controller.ts:75-79 | a non-empty list without query parameters is answered with page 1 holding the first min(50, n) products |
| ProductPaginateController.GetProductsByCategoryAndSortBy | src/product/product.paginate.controller.ts:134-144 | the sort handler passes the fetch to paginateRecords with the requested or default parameters: a `null` fetch is the 404 with NO_PRODUCT_FOUND; for an empty list, a page >= 1 is a 400 with PAGE_NO_EXCEED and a page <= 0 is a DTO without data on page 1 with 0 items and 0 pages; a non-positive size returns `null`; a non-empty list is answered as by `GET product/pg`, and `null` or non-empty fetches as by the handler corrected for `null` |
| ProductPaginateController.EmptyListIsNoRecordFound | src/product/product.controller.ts:40-47 | reached from `GET product/pg`, an empty list is a 400 with "No record found" whatever the page parameters, never the PAGE_NO_EXCEED the handler documents |
| ProductPaginateController.GetAllProductsCorrected | src/product/product.paginate.controller.ts:60-81 | `GET product/pg` as its documented responses describe it: never crashes, a `null` fetch is the 404 with NO_PRODUCT_FOUND, page 1 of an empty list is the 400 with PAGE_NO_EXCEED, and non-empty lists are answered as written |
| ProductPaginateController.PageSizeNotCapped | src/product/product.paginate.controller.ts:79 | a requested page size above 50 is used as is, so it differs from pageLimit's cap |

## Left out

- Database access, the TypeORM repository and the async handlers' I/O. The fetched product list is a parameter of the model.
- The product service fetch of the paginated sort endpoint. It runs the query `BuildOrder` describes against the database, which is I/O, so the fetched list is a parameter of `ProductPaginateController.GetProductsByCategoryAndSortBy`.
- The paginated price-range and name-search endpoints. They call `ProductController` members (`getProductByMinAndMaxPrice`, `getProductByName`) that `product.controller.ts` does not declare.
- The unpaginated `ProductController` endpoints `getProductById` and `createNewProduct`. They are service-call plumbing.
- The value of `ProductController.NO_PRODUCT_FOUND`. The paginating controller references it, but `product.controller.ts` declares no such member, so its value is unknown and the model keeps it as a constant without a given value.
- TypeORM's `MoreThanOrEqual`, `LessThanOrEqual` and `Between` objects. They are replaced by the `PriceFilter` datatype. `Admits` reads a missing `Between` bound as SQL NULL, which no price satisfies.
- JavaScript typing quirks. Query parameters are modelled as integers, so there is no string comparison and no `parseInt` truncation of fractional pages (for an integer page, line 38's `parseInt` is the identity). Prices are integers, not decimals.
- ProductController.BuildOrder: requires ASCII order strings. JavaScript `toUpperCase` applies Unicode case mapping (`"ſ"` becomes `"S"`, so `"deſc"` sorts DESC), which is not modelled.
- ProductController.DirectionOf: requires an ASCII string, for the same reason; non-ASCII strings that upper-case to "DESC" are not covered.
- ProductController.ColumnsIndependent: requires ASCII order strings, the restriction it inherits from `BuildOrder`. In the source the price entry is independent of `orderby_name` for every string.
- ProductController.UpperCaseIsDesc: requires an ASCII string, for the same reason; over all of Unicode, more strings than the case mixes of "desc" upper-case to "DESC".
- Pagination.GetByPageNumber: the `console.log("page no exceed")` before the error is thrown is console output and is not modelled.
- Pagination.ConvertListIntoNestedList: requires a non-`null` list when the page size is positive. The source fails inside `reduce` on that input.
- Pagination.GetPaginatedList: requires a non-`null` list when the page size is positive, for the same reason.
- Swagger and validation decorators, DTO classes beyond the plain `PaginationProductDto` record, bootstrap, configuration and the CSV import script.
- That the input list is never modified. The model's lists are immutable values, so this holds by construction.

## Findings

| source | as written | input that shows it | evidently intended | confidence | as-written member | corrected member |
|---|---|---|---|---|---|---|
| src/product/product.controller.ts:40 | `result.length` is read without a `null` check, so a `null` service result is a TypeError and the 404 branch of `paginateRecords` (product.paginate.controller.ts lines 33-37) is never reached from `GET product/pg` | the product service returns `null` (its `mapToProductDTO` does so for a `null` repository result; product.paginate.controller.spec.ts lines 97-105 expect a 404 with NO_PRODUCT_FOUND for it) | a `null` result reaches `paginateRecords`, which answers 404 with NO_PRODUCT_FOUND | medium, not executed | ProductPaginateController.NotFoundUnreachable | ProductPaginateController.GetAllProductsNullSafe |
| src/product/product.controller.ts:40-47 | reached from `GET product/pg`, getAllProducts rejects an empty list itself with a 400 carrying "No record found", so `paginateRecords` never sees it | the product service returns an empty list; product.paginate.controller.spec.ts lines 87-95 expect a 400 with PAGE_NO_EXCEED, which product.paginate.controller.ts lines 65-68 document as the endpoint's 400 | the empty list reaches `paginateRecords`, whose page lookup answers page 1 with a 400 carrying PAGE_NO_EXCEED | medium, not executed | ProductPaginateController.EmptyListIsNoRecordFound | ProductPaginateController.GetAllProductsCorrected |

=== FILE: http.dfy ===
/** What a controller hands back to the web framework: a value, a thrown
    HttpException, or a runtime error nobody catches. */
module Http {

  /** The two HTTP error statuses the controllers raise. */
  datatype Status = BadRequest | NotFound

  /** `Returned(v)` is a normal return; `Thrown(s, m)` is `throw new HttpException(m, s)`;
      `Crashed(e)` is a JavaScript runtime error such as a TypeError, which the
      framework answers with an internal server error. */
  datatype Response<+T> =
    | Returned(value: T)
    | Thrown(status: Status, message: string)
    | Crashed(error: string)
}

=== FILE: pagination.dfy ===
/**
 * The pagination utility: it cuts an already fetched list into pages of a fixed
 * size, looks one page up by its 1-based number and wraps it with the page
 * metadata of a PaginationProductDTO. A non-positive page size gives no result
 * (JavaScript `null`), a page number past the last page throws an Error.
 */
module Pagination {
  import opened Wrappers

  /** The message of the Error thrown for a page number past the last page. */
  const PAGE_NO_EXCEED: string := "ERROR: Page number query exceeds available page range."

  /** The largest page size `PageLimit` lets through. */
  const MAX_PAGE_LIMIT: int := 50

  /** The PaginationProductDTO: one page of data plus its metadata. `data` is
      `None` when the page lookup produced `undefined`. */
  datatype PaginationProductDto<T> = PaginationProductDto(
    data: Option<seq<T>>,
    currentPage: int,
    itemPerPage: int,
    totalItems: nat,
    totalPages: nat)

  /** The three ways `getPaginatedList` ends: `null`, a thrown Error, or a DTO. */
  datatype Outcome<T> =
    | NoResult
    | PageExceeded(message: string)
    | Ok(result: PaginationProductDto<T>)

  /** The three ways `getByPageNumber` ends: `null`, a thrown Error, or an
      array element (which is `undefined` for an index outside the array). */
  datatype Lookup<T> =
    | NoNestedList
    | Exceeded
    | Element(chunk: Option<seq<T>>)

  function Min(a: int, b: int): (m: int)
    ensures m <= a && m <= b
    ensures m == a || m == b
  {
    if a <= b then a else b
  }

  /** The number of pages a list of `n` items needs at `k` items per page: the ceiling of n / k. */
  function TotalPages(n: nat, k: int): (t: nat)
    requires k > 0
  {
    (n + k - 1) / k
  }

  /** Page `p` (1-based) of `xs` at `k` items per page is `data`: the page starts
      inside the list and holds the items from index (p-1)*k up to p*k, cut at the end. */
  predicate IsPageOf<T(==)>(xs: seq<T>, k: int, p: int, data: seq<T>)
    requires k > 0
  {
    && 0 <= (p - 1) * k < |xs|
    && data == xs[(p - 1) * k .. Min(p * k, |xs|)]
  }

  /** `chunks` are the pages of the first `i` items: one page for every multiple
      of `k` below `i`, each one the full page of `xs` that starts there. */
  predicate ChunkedUpTo<T(==)>(xs: seq<T>, k: int, i: nat, chunks: seq<seq<T>>)
    requires k > 0
  {
    && i <= |xs|
    && |chunks| == TotalPages(i, k)
    && forall j :: 0 <= j < |chunks| ==> j * k < i && IsPageOf(xs, k, j + 1, chunks[j])
  }

  /** `chunks` are exactly the pages of the whole of `xs`. */
  predicate IsChunking<T(==)>(xs: seq<T>, k: int, chunks: seq<seq<T>>)
    requires k > 0
  {
    ChunkedUpTo(xs, k, |xs|, chunks)
  }

  /** The concatenation of a list of pages, in order. */
  function Flatten<T>(chunks: seq<seq<T>>): seq<T>
  {
    if |chunks| == 0 then [] else Flatten(chunks[..|chunks| - 1]) + chunks[|chunks| - 1]
  }

  /** JavaScript `a[i]`: the element, or `undefined` outside the array. */
  function At<T>(a: seq<T>, i: int): (r: Option<T>)
    ensures r.Some? <==> 0 <= i < |a|
    ensures r.Some? ==> r.value == a[i]
  {
    if 0 <= i < |a| then Some(a[i]) else None
  }

  // ---------------------------------------------------------------------------
  // Arithmetic facts about the page count
  // ---------------------------------------------------------------------------

  lemma DivUnique(a: int, k: int, q: int, r: int)
    requires k > 0 && 0 <= r < k && a == q * k + r
    ensures a / k == q
  {
    var q', r' := a / k, a % k;
    assert a == q' * k + r' && 0 <= r' < k;
    var d := q' - q;
    assert d * k == q' * k - q * k;
    assert d * k == r - r';
  }

  /** Moving past item `i` opens a new page exactly when `i` is a multiple of `k`,
      and then that page is page number i / k (0-based). */
  lemma TotalPagesStep(i: nat, k: int)
    requires k > 0
    ensures i % k == 0 ==> TotalPages(i + 1, k) == TotalPages(i, k) + 1 && TotalPages(i, k) * k == i
    ensures i % k != 0 ==> TotalPages(i + 1, k) == TotalPages(i, k)
  {
    var q, r := i / k, i % k;
    assert i == q * k + r && 0 <= r < k;
    assert (q + 1) * k == q * k + k;
    if r == 0 {
      assert i + k - 1 == q * k + (k - 1);
      DivUnique(i + k - 1, k, q, k - 1);
      assert i + k == (q + 1) * k + 0;
      DivUnique(i + k, k, q + 1, 0);
    } else {
      assert i + k - 1 == (q + 1) * k + (r - 1);
      DivUnique(i + k - 1, k, q + 1, r - 1);
      assert i + k == (q + 1) * k + r;
      DivUnique(i + k, k, q + 1, r);
    }
  }

  /** TotalPages(n, k) pages of `k` items are enough for `n` items, and one page fewer is not. */
  lemma TotalPagesIsCeiling(n: nat, k: int)
    requires k > 0
    ensures TotalPages(n, k) * k >= n
    ensures (TotalPages(n, k) - 1) * k < n
  {
    var q := n / k;
    var r := n % k;
    assert n == q * k + r;
    if r == 0 {
      DivUnique(n + k - 1, k, q, k - 1);
    } else {
      DivUnique(n + k - 1, k, q + 1, r - 1);
    }
  }

  // ---------------------------------------------------------------------------
  // convertListIntoNestedList
  // ---------------------------------------------------------------------------

  /** The `reduce` of convertListIntoNestedList: visiting index `i`, a slice of
      `k` items starting at `i` is appended when `i` is a multiple of `k`. */
  function ChunkFold<T(==)>(xs: seq<T>, k: int, i: nat, acc: seq<seq<T>>): (r: seq<seq<T>>)
    requires k > 0
    requires ChunkedUpTo(xs, k, i, acc)
    ensures IsChunking(xs, k, r)
    decreases |xs| - i
  {
    if i == |xs| then acc
    else
      TotalPagesStep(i, k);
      var acc' := if i % k == 0 then acc + [xs[i .. Min(i + k, |xs|)]] else acc;
      ChunkFold(xs, k, i + 1, acc')
  }

  /** convertListIntoNestedList: `null` for a non-positive page size, otherwise
      the list cut into its pages. A `null` list is only admitted together with
      a non-positive page size (the source's `reduce` fails on it otherwise). */
  function ConvertListIntoNestedList<T(==)>(list: Option<seq<T>>, pageLimit: int): (r: Option<seq<seq<T>>>)
    requires list.Some? || pageLimit <= 0
    ensures r.None? <==> pageLimit <= 0
    ensures r.Some? ==> IsChunking(list.value, pageLimit, r.value)
  {
    if pageLimit <= 0 then None
    else
      assert TotalPages(0, pageLimit) == 0;
      Some(ChunkFold(list.value, pageLimit, 0, []))
  }

  /** Every page is non-empty and holds at most `k` items; every page but the last holds exactly `k`. */
  lemma ChunkSizes<T>(xs: seq<T>, k: int, chunks: seq<seq<T>>)
    requires k > 0 && IsChunking(xs, k, chunks)
    ensures forall j :: 0 <= j < |chunks| ==> 0 < |chunks[j]| <= k
    ensures forall j :: 0 <= j < |chunks| - 1 ==> |chunks[j]| == k
  {
    forall j | 0 <= j < |chunks|
      ensures 0 < |chunks[j]| <= k
    {
      assert IsPageOf(xs, k, j + 1, chunks[j]);
      assert (j + 1) * k == j * k + k;
    }
    forall j | 0 <= j < |chunks| - 1
      ensures |chunks[j]| == k
    {
      assert IsPageOf(xs, k, j + 1, chunks[j]);
      assert IsPageOf(xs, k, j + 2, chunks[j + 1]);
      assert (j + 1) * k == j * k + k;
      assert (j + 2 - 1) * k == (j + 1) * k;
    }
  }

  /** The first `m` pages concatenate to the first m * k items (cut at the end of the list). */
  lemma {:induction false} FlattenPrefix<T>(xs: seq<T>, k: int, chunks: seq<seq<T>>, m: nat)
    requires k > 0 && IsChunking(xs, k, chunks) && m <= |chunks|
    ensures Flatten(chunks[..m]) == xs[..Min(m * k, |xs|)]
  {
    if m == 0 {
      assert chunks[..0] == [];
    } else {
      FlattenPrefix(xs, k, chunks, m - 1);
      assert chunks[..m][..m - 1] == chunks[..m - 1];
      assert IsPageOf(xs, k, m, chunks[m - 1]);
      var a := (m - 1) * k;
      assert m * k == a + k;
      assert Min(a, |xs|) == a;
      calc {
        Flatten(chunks[..m]);
        Flatten(chunks[..m - 1]) + chunks[m - 1];
        xs[..a] + xs[a .. Min(m * k, |xs|)];
        { assert a <= Min(m * k, |xs|) <= |xs|; }
        xs[..Min(m * k, |xs|)];
      }
    }
  }

  /** The pages concatenate back to the original list. */
  lemma ChunksConcatenate<T>(xs: seq<T>, k: int, chunks: seq<seq<T>>)
    requires k > 0 && IsChunking(xs, k, chunks)
    ensures Flatten(chunks) == xs
  {
    FlattenPrefix(xs, k, chunks, |chunks|);
    TotalPagesIsCeiling(|xs|, k);
    assert chunks[..|chunks|] == chunks;
    assert xs[..|xs|] == xs;
  }

  /** The pages of a list are determined by it: two chunkings of one list are equal. */
  lemma ChunkingUnique<T>(xs: seq<T>, k: int, c1: seq<seq<T>>, c2: seq<seq<T>>)
    requires k > 0 && IsChunking(xs, k, c1) && IsChunking(xs, k, c2)
    ensures c1 == c2
  {
    forall j | 0 <= j < |c1|
      ensures c1[j] == c2[j]
    {
      assert IsPageOf(xs, k, j + 1, c1[j]);
      assert IsPageOf(xs, k, j + 1, c2[j]);
    }
  }

  // ---------------------------------------------------------------------------
  // getByPageNumber and getPaginatedList
  // ---------------------------------------------------------------------------

  /** getByPageNumber: `null` for a `null` nested list, an Error past the last
      page, otherwise the element at index page - 1 (undefined for page <= 0). */
  function GetByPageNumber<T(==)>(nestedList: Option<seq<seq<T>>>, page: int): (r: Lookup<T>)
    ensures r.NoNestedList? <==> nestedList.None?
    ensures r.Exceeded? <==> nestedList.Some? && page > |nestedList.value|
    ensures r.Element? ==> (r.chunk.Some? <==> 1 <= page)
    ensures r.Element? && 1 <= page ==> r.chunk.value == nestedList.value[page - 1]
  {
    match nestedList
    case None => NoNestedList
    case Some(nested) =>
      if page > |nested| then Exceeded
      else Element(At(nested, page - 1))
  }

  /** getPaginatedList. The page is looked up before a non-positive page number
      is normalised to 1, so such a request reports page 1 but carries no data. */
  function GetPaginatedList<T(==)>(list: Option<seq<T>>, currentPage: int, itemPerPage: int): (r: Outcome<T>)
    requires list.Some? || itemPerPage <= 0
    ensures r.NoResult? <==> itemPerPage <= 0
    ensures itemPerPage > 0 ==> (r.PageExceeded? <==> currentPage > TotalPages(|list.value|, itemPerPage))
    ensures r.PageExceeded? ==> r.message == PAGE_NO_EXCEED
    ensures r.Ok? ==>
      && r.result.currentPage == (if currentPage <= 0 then 1 else currentPage)
      && r.result.currentPage >= 1
      && r.result.itemPerPage == itemPerPage
      && r.result.totalItems == |list.value|
      && r.result.totalPages == TotalPages(|list.value|, itemPerPage)
      && (r.result.data.Some? <==> currentPage >= 1)
      && (r.result.data.Some? ==> IsPageOf(list.value, itemPerPage, currentPage, r.result.data.value))
  {
    var nestedList := ConvertListIntoNestedList(list, itemPerPage);
    match GetByPageNumber(nestedList, currentPage)
    case NoNestedList => NoResult
    case Exceeded => PageExceeded(PAGE_NO_EXCEED)
    case Element(data) =>
      if nestedList.Some? then
        assert data.Some? ==> IsPageOf(list.value, itemPerPage, currentPage - 1 + 1, nestedList.value[currentPage - 1]);
        var page := if currentPage <= 0 then 1 else currentPage;
        Ok(PaginationProductDto(data, page, itemPerPage, |list.value|, |nestedList.value|))
      else NoResult
  }

  /** pageLimit: caps a page size at 50 and lets every smaller value through, non-positive ones included. */
  function PageLimit(currentLimit: int): (r: int)
    ensures r <= MAX_PAGE_LIMIT
    ensures r == currentLimit || r == MAX_PAGE_LIMIT
    ensures currentLimit <= MAX_PAGE_LIMIT ==> r == currentLimit
  {
    if currentLimit > MAX_PAGE_LIMIT then MAX_PAGE_LIMIT else currentLimit
  }

  // ---------------------------------------------------------------------------
  // Properties of the paginator
  // ---------------------------------------------------------------------------

  /** Capping twice is capping once. */
  lemma PageLimitIdempotent(x: int)
    ensures PageLimit(PageLimit(x)) == PageLimit(x)
  {
  }

  /** A non-positive page size gives no result, whatever the list (even `null`) and the page. */
  lemma NonPositivePageSizeGivesNoResult<T>(list: Option<seq<T>>, page: int, itemPerPage: int)
    requires itemPerPage <= 0
    ensures GetPaginatedList(list, page, itemPerPage) == NoResult
  {
  }

  /** Page 1 of an empty list is already past the last page. */
  lemma EmptyListFirstPageExceeds<T>(itemPerPage: int)
    requires itemPerPage > 0
    ensures var empty: seq<T> := []; GetPaginatedList(Some(empty), 1, itemPerPage) == PageExceeded(PAGE_NO_EXCEED)
  {
  }

  /** A non-positive page number never fails and is reported as page 1, but
      unlike a request for page 1 it carries no data. */
  lemma NonPositivePageIsNotFirstPage<T>(xs: seq<T>, page: int, itemPerPage: int)
    requires itemPerPage > 0 && page <= 0
    ensures GetPaginatedList(Some(xs), page, itemPerPage).Ok?
    ensures GetPaginatedList(Some(xs), page, itemPerPage).result.currentPage == 1
    ensures GetPaginatedList(Some(xs), page, itemPerPage).result.data == None
    ensures GetPaginatedList(Some(xs), page, itemPerPage) != GetPaginatedList(Some(xs), 1, itemPerPage)
  {
  }

  /** A page within range holds exactly its slice of the list. */
  lemma PageInRangeIsSlice<T>(xs: seq<T>, page: int, itemPerPage: int)
    requires itemPerPage > 0 && 1 <= page <= TotalPages(|xs|, itemPerPage)
    ensures GetPaginatedList(Some(xs), page, itemPerPage).Ok?
    ensures GetPaginatedList(Some(xs), page, itemPerPage).result.data
         == Some(xs[(page - 1) * itemPerPage .. Min(page * itemPerPage, |xs|)])
  {
  }

  /** The data of every page, from page 1 to the last, in order. */
  function AllPages<T(==)>(xs: seq<T>, itemPerPage: int): (pages: seq<seq<T>>)
    requires itemPerPage > 0
    ensures |pages| == TotalPages(|xs|, itemPerPage)
  {
    seq(TotalPages(|xs|, itemPerPage),
        p requires 0 <= p < TotalPages(|xs|, itemPerPage) =>
          GetPaginatedList(Some(xs), p + 1, itemPerPage).result.data.value)
  }

  /** Requesting every page in turn and concatenating their data gives back the whole list. */
  lemma AllPagesConcatenate<T>(xs: seq<T>, itemPerPage: int)
    requires itemPerPage > 0
    ensures Flatten(AllPages(xs, itemPerPage)) == xs
  {
    var pages := AllPages(xs, itemPerPage);
    var chunks := ConvertListIntoNestedList(Some(xs), itemPerPage).value;
    forall j | 0 <= j < |pages|
      ensures IsPageOf(xs, itemPerPage, j + 1, pages[j])
    {
      assert j * itemPerPage < |xs|;
    }
    assert ChunkedUpTo(xs, itemPerPage, |xs|, pages);
    ChunkingUnique(xs, itemPerPage, pages, chunks);
    ChunksConcatenate(xs, itemPerPage, chunks);
  }

  /** The worked examples: 300 items 1..300 at 50 per page make 6 pages whose first
      starts with 1; page 50 at 100 per page is past the last of 3 pages; page size 0
      gives no result, also for a `null` list. */
  lemma ThreeHundredItems()
    ensures var xs := seq(300, i => i + 1); var absent: Option<seq<int>> := None;
      && GetPaginatedList(Some(xs), 1, 50).Ok?
      && GetPaginatedList(Some(xs), 1, 50).result.data.value[0] == 1
      && GetPaginatedList(Some(xs), 1, 50).result.totalItems == 300
      && GetPaginatedList(Some(xs), 1, 50).result.totalPages == 6
      && GetPaginatedList(Some(xs), 50, 100) == PageExceeded(PAGE_NO_EXCEED)
      && GetPaginatedList(Some(xs), 1, 0) == NoResult
      && GetPaginatedList(absent, 1, 0) == NoResult
  {
    var xs := seq(300, i => i + 1);
    assert TotalPages(300, 50) == 6;
    assert TotalPages(300, 100) == 3;
    assert IsPageOf(xs, 50, 1, GetPaginatedList(Some(xs), 1, 50).result.data.value);
  }
}

=== FILE: product_controller.dfy ===
/**
 * The product controller's own logic: turning the optional `orderby_name` and
 * `orderby_price` query strings into the ordered sort specification handed to
 * the product service, and rejecting an empty product list in getAllProducts.
 */
module ProductController {
  import opened Wrappers
  import opened Http
  import ProductUtil

  /** The message getAllProducts throws for an empty product list. */
  const NO_RECORD_FOUND: string := "No record found"

  /** The message the paginating controller throws when there are no products at
      all. It is referenced as a member of ProductController, but
      product.controller.ts declares no such member, so its text is unknown. */
  const NO_PRODUCT_FOUND: string

  /** The TypeError JavaScript raises for `result.length` on a `null` result. */
  const NULL_LENGTH_ERROR: string := "TypeError: Cannot read properties of null (reading 'length')"

  datatype Direction = ASC | DESC

  /** The columns an order can name. */
  datatype Column = Name | Price

  /** One `column: direction` entry of the `order` object of a find query. */
  datatype OrderEntry = OrderEntry(column: Column, direction: Direction)

  predicate IsAscii(s: string)
  {
    forall i :: 0 <= i < |s| ==> s[i] as int < 128
  }

  /** An optional query string whose characters are all ASCII. */
  predicate IsAsciiQuery(o: Option<string>)
  {
    o.Some? ==> IsAscii(o.value)
  }

  /** `toUpperCase` on one ASCII character. */
  function UpperChar(c: char): (u: char)
    requires c as int < 128
    ensures 'a' <= c <= 'z' ==> u as int == c as int - 32
    ensures !('a' <= c <= 'z') ==> u == c
  {
    if 'a' <= c <= 'z' then (c as int - 32) as char else c
  }

  /** `toUpperCase` on an ASCII string. */
  function ToUpperCase(s: string): (u: string)
    requires IsAscii(s)
    ensures |u| == |s|
    ensures forall i :: 0 <= i < |s| ==> u[i] == UpperChar(s[i])
  {
    seq(|s|, i requires 0 <= i < |s| => UpperChar(s[i]))
  }

  /** `s` spells "desc" in any mix of upper and lower case. */
  predicate IsDescKeyword(s: string)
  {
    && |s| == 4
    && (s[0] == 'd' || s[0] == 'D')
    && (s[1] == 'e' || s[1] == 'E')
    && (s[2] == 's' || s[2] == 'S')
    && (s[3] == 'c' || s[3] == 'C')
  }

  /** The upper-case form of `s` is "DESC" exactly when `s` spells "desc" in some mix of cases. */
  lemma UpperCaseIsDesc(s: string)
    requires IsAscii(s)
    ensures ToUpperCase(s) == "DESC" <==> IsDescKeyword(s)
  {
    var u := ToUpperCase(s);
    if IsDescKeyword(s) {
      assert u[0] == 'D' && u[1] == 'E' && u[2] == 'S' && u[3] == 'C';
      assert u == "DESC";
    }
    if u == "DESC" {
      assert |s| == 4;
      assert UpperChar(s[0]) == 'D' && UpperChar(s[1]) == 'E';
      assert UpperChar(s[2]) == 'S' && UpperChar(s[3]) == 'C';
    }
  }

  /** The direction a non-empty order string asks for: DESC when its upper-case
      form is "DESC", ASC for anything else ("asc" and garbage alike). */
  function DirectionOf(s: string): (d: Direction)
    requires IsAscii(s)
    ensures d == DESC <==> IsDescKeyword(s)
  {
    UpperCaseIsDesc(s);
    if ToUpperCase(s) == "DESC" then DESC else ASC
  }

  /** The query string asks for a sort on its column: it is given and not empty. */
  predicate Requested(o: Option<string>)
  {
    o.Some? && o.value != ""
  }

  /** `order` has an entry for `column`. */
  predicate HasColumn(order: seq<OrderEntry>, column: Column)
  {
    exists i :: 0 <= i < |order| && order[i].column == column
  }

  /** `order` holds the entry `column: direction`. */
  predicate HasEntry(order: seq<OrderEntry>, column: Column, direction: Direction)
  {
    exists i :: 0 <= i < |order| && order[i] == OrderEntry(column, direction)
  }

  /** The `order` object getProductsByCategoryAndSortBy builds: a name entry when
      `orderby_name` is requested, then a price entry when `orderby_price` is,
      each DESC exactly when the string spells "desc" in any case. */
  function BuildOrder(orderbyName: Option<string>, orderbyPrice: Option<string>): (order: seq<OrderEntry>)
    requires IsAsciiQuery(orderbyName) && IsAsciiQuery(orderbyPrice)
    ensures |order| <= 2
    ensures forall i, j :: 0 <= i < j < |order| ==> order[i].column == Name && order[j].column == Price
    ensures HasColumn(order, Name) <==> Requested(orderbyName)
    ensures HasColumn(order, Price) <==> Requested(orderbyPrice)
    ensures Requested(orderbyName) ==>
      HasEntry(order, Name, if IsDescKeyword(orderbyName.value) then DESC else ASC)
    ensures Requested(orderbyPrice) ==>
      HasEntry(order, Price, if IsDescKeyword(orderbyPrice.value) then DESC else ASC)
  {
    var name := ProductUtil.ValidateUndefined(ProductUtil.OfString(orderbyName));
    var price := ProductUtil.ValidateUndefined(ProductUtil.OfString(orderbyPrice));
    var nameEntry := if name != ProductUtil.Str("") then [OrderEntry(Name, DirectionOf(name.s))] else [];
    var priceEntry := if price != ProductUtil.Str("") then [OrderEntry(Price, DirectionOf(price.s))] else [];
    var order := nameEntry + priceEntry;
    assert Requested(orderbyName) ==> order[0] == OrderEntry(Name, DirectionOf(orderbyName.value));
    assert Requested(orderbyName) ==> HasEntry(order, Name, DirectionOf(orderbyName.value));
    assert !Requested(orderbyName) ==> order == priceEntry;
    assert Requested(orderbyPrice) ==> order[|order| - 1] == OrderEntry(Price, DirectionOf(orderbyPrice.value));
    assert Requested(orderbyPrice) ==> HasEntry(order, Price, DirectionOf(orderbyPrice.value));
    assert !Requested(orderbyPrice) ==> order == nameEntry;
    order
  }

  /** The order getAllProducts asks for: by name ascending, nothing else. */
  lemma AllProductsOrder()
    ensures BuildOrder(Some("asc"), None) == [OrderEntry(Name, ASC)]
  {
    var order := BuildOrder(Some("asc"), None);
    assert !IsDescKeyword("asc");
    assert HasEntry(order, Name, ASC);
  }

  /** The name and price entries are decided independently: changing one query
      string leaves the other column's entry as it was. */
  lemma ColumnsIndependent(name1: Option<string>, name2: Option<string>, price: Option<string>, d: Direction)
    requires IsAsciiQuery(name1) && IsAsciiQuery(name2) && IsAsciiQuery(price)
    ensures HasEntry(BuildOrder(name1, price), Price, d) <==> HasEntry(BuildOrder(name2, price), Price, d)
  {
    var o1, o2 := BuildOrder(name1, price), BuildOrder(name2, price);
    if HasEntry(o1, Price, d) {
      assert Requested(price);
      assert d == (if IsDescKeyword(price.value) then DESC else ASC) by {
        var e := if IsDescKeyword(price.value) then DESC else ASC;
        UniquePriceEntry(o1, d, e);
      }
    }
    if HasEntry(o2, Price, d) {
      assert Requested(price);
      assert d == (if IsDescKeyword(price.value) then DESC else ASC) by {
        var e := if IsDescKeyword(price.value) then DESC else ASC;
        UniquePriceEntry(o2, d, e);
      }
    }
  }

  /** In an order with at most one price entry, that entry has one direction. */
  lemma UniquePriceEntry(order: seq<OrderEntry>, d: Direction, e: Direction)
    requires forall i, j :: 0 <= i < j < |order| ==> order[i].column == Name && order[j].column == Price
    requires HasEntry(order, Price, d) && HasEntry(order, Price, e)
    ensures d == e
  {
  }

  /** getAllProducts, given what the product service fetched (`null` when the
      repository gave nothing): a non-empty list is returned, an empty one is a
      bad request, and a `null` one crashes on `result.length` before any check. */
  function GetAllProducts<T>(fetched: Option<seq<T>>): (r: Response<Option<seq<T>>>)
    ensures fetched.None? <==> r.Crashed?
    ensures r.Returned? <==> fetched.Some? && |fetched.value| != 0
    ensures r.Returned? ==> r.value == fetched
    ensures r.Thrown? ==> r.status == BadRequest && r.message == NO_RECORD_FOUND
  {
    match fetched
    case None => Crashed(NULL_LENGTH_ERROR)
    case Some(result) =>
      if |result| != 0 then Returned(fetched)
      else Thrown(BadRequest, NO_RECORD_FOUND)
  }

  /** getAllProducts as its callers evidently expect it: a `null` result is
      passed on untouched, so that the caller's own `null` check can answer it;
      lists are treated as by GetAllProducts. */
  function GetAllProductsNullSafe<T>(fetched: Option<seq<T>>): (r: Response<Option<seq<T>>>)
    ensures !r.Crashed?
    ensures fetched.None? ==> r == Returned(None)
    ensures fetched.Some? ==> r == GetAllProducts(fetched)
  {
    if fetched.None? then Returned(None)
    else if |fetched.value| != 0 then Returned(fetched)
    else Thrown(BadRequest, NO_RECORD_FOUND)
  }
}

=== FILE: product_paginate_controller.dfy ===
/**
 * The paginating product controller: paginateRecords maps the paginator's three
 * outcomes onto HTTP responses, and the `GET product/pg` and
 * `GET product/pg/sortby` handlers fill in the default page number and page size
 * before paginating the products they fetched.
 */
module ProductPaginateController {
  import opened Wrappers
  import opened Http
  import opened Pagination
  import ProductController

  /** The controller's own copy of the out-of-range message. */
  const PAGE_NO_EXCEED: string := "ERROR: Page number query exceeds available page range."

  /** The page number used when the `currentPage` query parameter is absent. */
  const DEFAULT_CURRENT_PAGE: int := 1

  /** The page size used when the `itemPerPage` query parameter is absent. */
  const DEFAULT_ITEM_PER_PAGE: int := 50

  /** paginateRecords: a `null` product list is a 404 with NO_PRODUCT_FOUND, a page
      past the last is a 400 with PAGE_NO_EXCEED, and anything else is the
      paginator's result (`null` for a non-positive page size) returned as is.
      Here `None` stands for `null` only: the source tests `products !== null`,
      so an `undefined` list would take the paginating branch instead. */
  function PaginateRecords<T(==)>(products: Option<seq<T>>, currentPage: int, itemPerPage: int)
    : (r: Response<Option<PaginationProductDto<T>>>)
    ensures products.None? ==> r == Thrown(NotFound, ProductController.NO_PRODUCT_FOUND)
    ensures products.Some? && itemPerPage > 0 && currentPage > TotalPages(|products.value|, itemPerPage)
      ==> r == Thrown(BadRequest, PAGE_NO_EXCEED)
    ensures products.Some? && itemPerPage <= 0 ==> r == Returned(None)
    ensures products.Some? && itemPerPage > 0 && currentPage <= TotalPages(|products.value|, itemPerPage)
      ==> r.Returned? && r.value.Some? && GetPaginatedList(products, currentPage, itemPerPage) == Ok(r.value.value)
  {
    match products
    case None => Thrown(NotFound, ProductController.NO_PRODUCT_FOUND)
    case Some(_) =>
      match GetPaginatedList(products, currentPage, itemPerPage)
      case PageExceeded(_) => Thrown(BadRequest, PAGE_NO_EXCEED)
      case NoResult => Returned(None)
      case Ok(result) => Returned(Some(result))
  }

  /** The controller's out-of-range message is the paginator's. */
  lemma SameOutOfRangeMessage()
    ensures PAGE_NO_EXCEED == Pagination.PAGE_NO_EXCEED
  {
  }

  /** A `null` product list is answered without looking at the page parameters. */
  lemma NullProductsIgnorePaging<T>(page1: int, size1: int, page2: int, size2: int)
    ensures var none: Option<seq<T>> := None;
      PaginateRecords(none, page1, size1) == PaginateRecords(none, page2, size2)
  {
  }

  /** Page 1 of an empty product list is a bad request, for every positive page size. */
  lemma EmptyProductsFirstPageIsBadRequest<T>(itemPerPage: int)
    requires itemPerPage > 0
    ensures var empty: seq<T> := [];
      PaginateRecords(Some(empty), 1, itemPerPage) == Thrown(BadRequest, PAGE_NO_EXCEED)
  {
  }

  /** One product on page 1 at ten per page comes back as the only item of the page. */
  lemma SingleProductFirstPage<T>(product: T)
    ensures PaginateRecords(Some([product]), 1, 10).Returned?
    ensures PaginateRecords(Some([product]), 1, 10).value.Some?
    ensures PaginateRecords(Some([product]), 1, 10).value.value.data == Some([product])
  {
    assert TotalPages(1, 10) == 1;
    assert IsPageOf([product], 10, 1, PaginateRecords(Some([product]), 1, 10).value.value.data.value);
    assert [product][0 .. Min(10, 1)] == [product];
  }

  /** The page number and size a request uses: the query values, or 1 and 50 when absent. */
  function PageQuery(currentPage: Option<int>, itemPerPage: Option<int>): (q: (int, int))
    ensures currentPage.None? ==> q.0 == DEFAULT_CURRENT_PAGE
    ensures currentPage.Some? ==> q.0 == currentPage.value
    ensures itemPerPage.None? ==> q.1 == DEFAULT_ITEM_PER_PAGE
    ensures itemPerPage.Some? ==> q.1 == itemPerPage.value
  {
    (currentPage.GetOr(DEFAULT_CURRENT_PAGE), itemPerPage.GetOr(DEFAULT_ITEM_PER_PAGE))
  }

  /** The `GET product/pg` handler, given what the product service fetched:
      getAllProducts answers a `null` or empty result itself, and any other list
      is paginated with the requested or default page parameters. The page size
      is passed on as requested, without the 50-item cap of pageLimit. */
  function GetAllProducts<T(==)>(fetched: Option<seq<T>>, currentPage: Option<int>, itemPerPage: Option<int>)
    : (r: Response<Option<PaginationProductDto<T>>>)
    ensures fetched.None? ==> r.Crashed?
    ensures fetched.Some? && |fetched.value| == 0 ==> r == Thrown(BadRequest, ProductController.NO_RECORD_FOUND)
    ensures fetched.Some? && |fetched.value| > 0 ==>
      r == PaginateRecords(fetched, PageQuery(currentPage, itemPerPage).0, PageQuery(currentPage, itemPerPage).1)
    ensures r.Returned? && r.value.Some? ==> r.value.value.itemPerPage == PageQuery(currentPage, itemPerPage).1
  {
    match ProductController.GetAllProducts(fetched)
    case Crashed(error) => Crashed(error)
    case Thrown(status, message) => Thrown(status, message)
    case Returned(products) =>
      var (page, size) := PageQuery(currentPage, itemPerPage);
      PaginateRecords(products, page, size)
  }

  /** The handler never reaches the not-found answer of paginateRecords: a `null`
      fetch crashes in getAllProducts first, and a list is never `null`. */
  lemma NotFoundUnreachable<T>(fetched: Option<seq<T>>, currentPage: Option<int>, itemPerPage: Option<int>)
    ensures GetAllProducts(fetched, currentPage, itemPerPage) != Thrown(NotFound, ProductController.NO_PRODUCT_FOUND)
    ensures fetched.None? ==> GetAllProducts(fetched, currentPage, itemPerPage).Crashed?
  {
  }

  /** The handler with the `null` result passed on to paginateRecords, which
      answers it with a 404. */
  function GetAllProductsNullSafe<T(==)>(fetched: Option<seq<T>>, currentPage: Option<int>, itemPerPage: Option<int>)
    : (r: Response<Option<PaginationProductDto<T>>>)
    ensures !r.Crashed?
    ensures fetched.None? ==> r == Thrown(NotFound, ProductController.NO_PRODUCT_FOUND)
    ensures fetched.Some? ==> r == GetAllProducts(fetched, currentPage, itemPerPage)
  {
    match ProductController.GetAllProductsNullSafe(fetched)
    case Crashed(error) => Crashed(error)
    case Thrown(status, message) => Thrown(status, message)
    case Returned(products) =>
      var (page, size) := PageQuery(currentPage, itemPerPage);
      PaginateRecords(products, page, size)
  }

  /** Without query parameters the first page of a non-empty list holds up to 50 products. */
  lemma DefaultRequestServesFirstFifty<T>(fetched: seq<T>)
    requires |fetched| > 0
    ensures GetAllProducts(Some(fetched), None, None).Returned?
    ensures GetAllProducts(Some(fetched), None, None).value.Some?
    ensures GetAllProducts(Some(fetched), None, None).value.value.currentPage == 1
    ensures GetAllProducts(Some(fetched), None, None).value.value.data == Some(fetched[..Min(50, |fetched|)])
  {
    TotalPagesIsCeiling(|fetched|, 50);
  }

  /** A requested page size above 50 is used as is: pageLimit is not applied. */
  lemma PageSizeNotCapped<T>(fetched: seq<T>, itemPerPage: int)
    requires itemPerPage > 50 && |fetched| > 0
    ensures GetAllProducts(Some(fetched), None, Some(itemPerPage)).Returned?
    ensures GetAllProducts(Some(fetched), None, Some(itemPerPage)).value.value.itemPerPage == itemPerPage
    ensures GetAllProducts(Some(fetched), None, Some(itemPerPage)).value.value.itemPerPage != PageLimit(itemPerPage)
  {
    TotalPagesIsCeiling(|fetched|, itemPerPage);
  }

  /** The `GET product/pg/sortby` handler, given what the product service fetched
      for the order BuildOrder builds from `orderByName` and `orderByPrice`: the
      fetched value goes straight to paginateRecords with the requested or
      default page parameters. Unlike `GET product/pg`, a `null` fetch reaches
      the 404 and an empty list gets PAGE_NO_EXCEED. */
  function GetProductsByCategoryAndSortBy<T(==)>(fetched: Option<seq<T>>, currentPage: Option<int>, itemPerPage: Option<int>)
    : (r: Response<Option<PaginationProductDto<T>>>)
    ensures fetched.None? ==> r == Thrown(NotFound, ProductController.NO_PRODUCT_FOUND)
    ensures (fetched.Some? && |fetched.value| == 0 &&
             PageQuery(currentPage, itemPerPage).0 >= 1 && PageQuery(currentPage, itemPerPage).1 > 0)
      ==> r == Thrown(BadRequest, PAGE_NO_EXCEED)
    ensures (fetched.Some? && |fetched.value| == 0 &&
             PageQuery(currentPage, itemPerPage).0 < 1 && PageQuery(currentPage, itemPerPage).1 > 0)
      ==> r == Returned(Some(PaginationProductDto(None, 1, PageQuery(currentPage, itemPerPage).1, 0, 0)))
    ensures fetched.Some? && PageQuery(currentPage, itemPerPage).1 <= 0 ==> r == Returned(None)
    ensures fetched.Some? && |fetched.value| > 0 ==> r == GetAllProducts(fetched, currentPage, itemPerPage)
    ensures fetched.None? || |fetched.value| > 0 ==> r == GetAllProductsNullSafe(fetched, currentPage, itemPerPage)
  {
    var (page, size) := PageQuery(currentPage, itemPerPage);
    PaginateRecords(fetched, page, size)
  }

  /** As written, `GET product/pg` answers page 1 of an empty list with the
      unpaginated endpoint's "No record found", not with the PAGE_NO_EXCEED its
      own 400 response documents. */
  lemma EmptyListIsNoRecordFound<T>(currentPage: Option<int>, itemPerPage: Option<int>)
    ensures var empty: seq<T> := [];
      GetAllProducts(Some(empty), currentPage, itemPerPage) == Thrown(BadRequest, ProductController.NO_RECORD_FOUND)
    ensures var empty: seq<T> := [];
      GetAllProducts(Some(empty), currentPage, itemPerPage) != Thrown(BadRequest, PAGE_NO_EXCEED)
  {
    assert |ProductController.NO_RECORD_FOUND| != |PAGE_NO_EXCEED|;
  }

  /** `GET product/pg` as its documented responses describe it: the list sorted
      by name ascending (the fetch of getAllProducts) goes to paginateRecords
      unchecked, exactly as the sort handler with `orderByName` "asc" does. A
      `null` fetch is the 404, page 1 of an empty list is the 400 with
      PAGE_NO_EXCEED, and non-empty lists are answered as written. */
  function GetAllProductsCorrected<T(==)>(fetched: Option<seq<T>>, currentPage: Option<int>, itemPerPage: Option<int>)
    : (r: Response<Option<PaginationProductDto<T>>>)
    ensures !r.Crashed?
    ensures fetched.None? ==> r == Thrown(NotFound, ProductController.NO_PRODUCT_FOUND)
    ensures (fetched.Some? && |fetched.value| == 0 &&
             PageQuery(currentPage, itemPerPage).0 >= 1 && PageQuery(currentPage, itemPerPage).1 > 0)
      ==> r == Thrown(BadRequest, PAGE_NO_EXCEED)
    ensures fetched.Some? && |fetched.value| > 0 ==> r == GetAllProducts(fetched, currentPage, itemPerPage)
  {
    GetProductsByCategoryAndSortBy(fetched, currentPage, itemPerPage)
  }
}

=== FILE: product_util.dfy ===
/**
 * The price-filter helpers: a JavaScript `undefined` is turned into the empty
 * string, an optional min/max price pair is checked for overlap, and the pair
 * selects an at-least, at-most or between filter for the price column.
 */
module ProductUtil {
  import opened Wrappers

  const ERROR_OVERLAPPINGPRICES: string := "min price greater than max price"
  const NO_ERROR: string := "no error"

  /** The JavaScript values the helpers see: `undefined`, a number or a string. */
  datatype Value = Undefined | Num(n: int) | Str(s: string)

  /** An optional number as JavaScript passes it: `undefined` when absent. */
  function OfNumber(o: Option<int>): (v: Value)
    ensures v.Undefined? <==> o.None?
    ensures o.Some? ==> v == Num(o.value)
  {
    match o
    case None => Undefined
    case Some(n) => Num(n)
  }

  /** An optional string as JavaScript passes it: `undefined` when absent. */
  function OfString(o: Option<string>): (v: Value)
    ensures v.Undefined? <==> o.None?
    ensures o.Some? ==> v == Str(o.value)
  {
    match o
    case None => Undefined
    case Some(s) => Str(s)
  }

  /** validateUndefined: `undefined` becomes the empty string, every other value is kept. */
  function ValidateUndefined(obj: Value): (r: Value)
    ensures !r.Undefined?
    ensures obj.Undefined? ==> r == Str("")
    ensures !obj.Undefined? ==> r == obj
  {
    if obj.Undefined? then Str("") else obj
  }

  /** verifyOverlappingMinMaxValue: the bounds overlap when min is not below max. */
  function VerifyOverlappingMinMaxValue(minPrice: int, maxPrice: int): (overlap: bool)
    ensures overlap <==> !(minPrice < maxPrice)
  {
    minPrice >= maxPrice
  }

  /** verifyMinMaxValueError: `null` when neither bound is given, NO_ERROR when
      only one is, and when both are, ERROR_OVERLAPPINGPRICES exactly if min >= max. */
  function VerifyMinMaxValueError(minPrice: Option<int>, maxPrice: Option<int>): (r: Option<string>)
    ensures r.None? <==> minPrice.None? && maxPrice.None?
    ensures minPrice.Some? != maxPrice.Some? ==> r == Some(NO_ERROR)
    ensures minPrice.Some? && maxPrice.Some? ==>
      r == Some(if minPrice.value < maxPrice.value then NO_ERROR else ERROR_OVERLAPPINGPRICES)
  {
    var min := ValidateUndefined(OfNumber(minPrice));
    var max := ValidateUndefined(OfNumber(maxPrice));
    if min == Str("") && max == Str("") then None
    else if min != Str("") && max == Str("") then Some(NO_ERROR)
    else if min == Str("") && max != Str("") then Some(NO_ERROR)
    else
      var overlap := VerifyOverlappingMinMaxValue(minPrice.value, maxPrice.value);
      Some(if overlap then ERROR_OVERLAPPINGPRICES else NO_ERROR)
  }

  /** The three price conditions the query can carry; `Between` keeps its bounds
      as given, absent ones included. */
  datatype PriceFilter =
    | MoreThanOrEqual(min: int)
    | LessThanOrEqual(max: int)
    | Between(low: Option<int>, high: Option<int>)

  /** Whether a price satisfies a filter. A missing bound of `Between` becomes an
      SQL NULL, which no price satisfies. */
  predicate Admits(f: PriceFilter, price: int)
  {
    match f
    case MoreThanOrEqual(min) => min <= price
    case LessThanOrEqual(max) => price <= max
    case Between(low, high) => low.Some? && high.Some? && low.value <= price <= high.value
  }

  /** defineMinMaxValueFunction: only a min gives an at-least filter, only a max
      an at-most filter, anything else (both or neither) a between filter. */
  function DefineMinMaxValueFunction(minPrice: Option<int>, maxPrice: Option<int>): (f: PriceFilter)
    ensures minPrice.Some? && maxPrice.None? ==> f == MoreThanOrEqual(minPrice.value)
    ensures minPrice.None? && maxPrice.Some? ==> f == LessThanOrEqual(maxPrice.value)
    ensures minPrice.Some? == maxPrice.Some? ==> f == Between(minPrice, maxPrice)
  {
    var min := ValidateUndefined(OfNumber(minPrice));
    var max := ValidateUndefined(OfNumber(maxPrice));
    if min != Str("") && max == Str("") then MoreThanOrEqual(minPrice.value)
    else if min == Str("") && max != Str("") then LessThanOrEqual(maxPrice.value)
    else Between(minPrice, maxPrice)
  }

  /** A blank value after validateUndefined is exactly `undefined` or the empty string. */
  lemma ValidateUndefinedBlank(obj: Value)
    ensures ValidateUndefined(obj) == Str("") <==> obj == Undefined || obj == Str("")
  {
  }

  /** Validation gives `null` exactly when the selected filter is a between with no bounds. */
  lemma NoQueryIsUnboundedBetween(minPrice: Option<int>, maxPrice: Option<int>)
    ensures VerifyMinMaxValueError(minPrice, maxPrice).None?
        <==> DefineMinMaxValueFunction(minPrice, maxPrice) == Between(None, None)
  {
  }

  /** A price pair that passes validation selects a filter with room in it: a
      between filter then has min strictly below max, and some price satisfies it. */
  lemma ValidatedFilterIsSatisfiable(minPrice: Option<int>, maxPrice: Option<int>)
    requires VerifyMinMaxValueError(minPrice, maxPrice) == Some(NO_ERROR)
    ensures DefineMinMaxValueFunction(minPrice, maxPrice).Between? ==>
      minPrice.Some? && maxPrice.Some? && minPrice.value < maxPrice.value
    ensures exists price :: Admits(DefineMinMaxValueFunction(minPrice, maxPrice), price)
  {
    var f := DefineMinMaxValueFunction(minPrice, maxPrice);
    if minPrice.Some? {
      assert Admits(f, minPrice.value);
    } else {
      assert Admits(f, maxPrice.value);
    }
  }

  /** A pair that fails validation has both bounds, with min not below max. */
  lemma RejectedPairOverlaps(minPrice: Option<int>, maxPrice: Option<int>)
    requires VerifyMinMaxValueError(minPrice, maxPrice) == Some(ERROR_OVERLAPPINGPRICES)
    ensures minPrice.Some? && maxPrice.Some? && minPrice.value >= maxPrice.value
  {
  }
}

=== FILE: wrappers.dfy ===
/** The Option datatype the model uses for JavaScript's null and undefined. */
module Wrappers {

  /** `None` stands for a JavaScript `null` or `undefined`; `Some(v)` for a present value. */
  datatype Option<+T> = None | Some(value: T) {

    /** The present value, with `default` standing in for an absent one. */
    function GetOr(default: T): (r: T)
      ensures Some? ==> r == value
      ensures None? ==> r == default
    {
      match this
      case Some(v) => v
      case None => default
    }
  }
}
